=== FILE: README.md ===
# User-account lifecycle of the LMS admin panel, in Dafny

This project models the part of the LMS admin panel that has rules of its
own: the lifecycle of accounts in the single `User` table, keyed by email.
An administrator creates an account with a temporary password and the
"password reset required" flag set. The user logs in, is sent to the reset
page, sets a new password (which clears the flag), and from then on is sent
to the dashboard of their role. A seed script creates the administrator
account `admin@admin.com` if it is absent.

Layout:

- `accounts.dfy` (`Accounts`): the data model. It holds the five roles and
  their names, the bcrypt abstraction (`Hash`, `Matches`) and a `User` row.
  It also holds the table as a value (`Table`: rows keyed by email, plus the
  next id) and its invariant `WellFormed`: a row is filed under its own
  email, and ids are unique.
- `temp_password.dfy` (`TempPassword`): `generateTemporaryPassword`. The
  hex encoder and its decoder are here, with the bytes from
  `crypto.randomBytes` taken as a parameter.
- `create_route.dfy`, `login_route.dfy`, `reset_route.dfy`, `seed.dfy`: each
  handler as a function from the table (and request) to its outcome and the
  table after it.
- `user_store.dfy` (`UserStore.UserTable`): the table as an object updated
  in place. Each writing handler is a method with the handler's early
  returns, proved equal to the function above.
- `lifecycle.dfy` (`Lifecycle`): how the handlers compose. It covers login
  after create, after reset and after seed, and how the reset flag can change.
- `login_page.dfy` (`LoginPage`): what the login form does with the login
  response (error banner, `router.push`), including runs from the form to
  the table.

## Model

| member | source | states |
|---|---|---|
| `Accounts.ParseRole` | src/app/api/admin/users/create/route.ts:34 | a role string is accepted exactly when it is one of the five enum names, and it then denotes that role |
| `Accounts.Hash` | src/app/api/admin/users/create/route.ts:43-44 | the hash of a password is accepted by the compare for that password; a hash is a `Digest`, never a plaintext string |
| `Accounts.HashMatchesOnly` | src/app/api/auth/login/route.ts:23 | `bcrypt.compare` accepts the password the hash was made from and no other (up to bcrypt's 72-byte limit, left out) |
| `TempPassword.ByteCount` | src/app/api/admin/users/create/route.ts:10 | `ceil(length/2)` bytes give at least `length` and at most `length + 1` hex digits |
| `TempPassword.Hex` | src/app/api/admin/users/create/route.ts:11 | hex encoding yields two characters per byte, each a lower-case hex digit |
| `TempPassword.HexAt` | src/app/api/admin/users/create/route.ts:11 | character `k` of the encoding is the high nibble (even `k`) or low nibble (odd `k`) of byte `k/2`, as a lower-case digit |
| `TempPassword.DigitRoundTrip` | src/app/api/admin/users/create/route.ts:11 | a nibble and its lower-case hex digit convert into each other |
| `TempPassword.UnhexHex` | src/app/api/admin/users/create/route.ts:11 | decoding the encoding gives back the bytes |
| `TempPassword.GenerateTemporaryPassword` | src/app/api/admin/users/create/route.ts:9-13 | the password has exactly `length` characters; each is a lower-case hex digit, namely the matching nibble of random byte `k/2` |
| `TempPassword.TemporaryPasswordDecodes` | src/app/api/admin/users/create/route.ts:9-13 | for an even length (the default 12) nothing is cut off, and the password decodes to the random bytes |
| `CreateRoute.Status` | src/app/api/admin/users/create/route.ts:21-67 | 201 exactly for a success, 409 exactly for a taken email, 400 for the other two failures |
| `CreateRoute.ErrorText` | src/app/api/admin/users/create/route.ts:21-35 | every failure carries a non-empty `error` text, a success none |
| `CreateRoute.NewRow` | src/app/api/admin/users/create/route.ts:47-56 | the inserted row has the reset flag set and writes none of the optional profile columns (phone, department, birth date, student id, batch) |
| `CreateRoute.ResponseFields` | src/app/api/admin/users/create/route.ts:62-67 | the response body never carries the temporary password; it carries `userId` exactly on success |
| `CreateRoute.Create` | src/app/api/admin/users/create/route.ts:15-67 | 400 iff a required field is missing or empty; else 409 iff the email is taken; else 400 iff the role is invalid; every failure leaves the table unchanged; success answers 201 with the new id and email, and 201 is exactly the case in which the table changes. Success adds exactly one row under the new email and changes no other row. The new row has the given names and role, the flag set, no batch, and a hash that accepts the temporary password. The table invariant is kept |
| `CreateRoute.ExtraFieldsIgnored` | src/app/api/admin/users/create/route.ts:17-56 | a `batch` or any other field besides the four required ones changes neither the response nor the table |
| `CreateRoute.DuplicateCheckedBeforeRole` | src/app/api/admin/users/create/route.ts:25-36 | a taken email with an invalid role yields 409, not 400 |
| `CreateRoute.SecondCreateConflicts` | src/app/api/admin/users/create/route.ts:25-31 | creating the same email a second time yields 409 and leaves the table as the first create left it |
| `LoginRoute.Login` | src/app/api/auth/login/route.ts:9-40 | missing email or password iff 400 outcome; success iff a row exists for the email and its hash accepts the password; success reports that row's id, role and reset flag; being a function of the table, it changes nothing |
| `LoginRoute.LoginRequest` | src/app/login/page.tsx:31 | the page's body always holds both fields, with exactly the form's email and password; each counts as given iff it is non-empty |
| `LoginRoute.LoggedInIdIdentifiesRow` | src/app/api/auth/login/route.ts:15-37 | on a table that keeps its invariant, the id a login reports belongs to exactly one row, the one filed under and holding the email that logged in |
| `LoginRoute.ToReply` | src/app/api/auth/login/route.ts:11-40 | status 200 exactly on success, with `message` "Login successful", no `error`, and the row's id, role name and reset flag; 400 "Email and password are required" for missing fields; 401 "Invalid credentials" otherwise; failure bodies carry `error` and no `message` or `role` |
| `LoginRoute.UnknownEmailLikeWrongPassword` | src/app/api/auth/login/route.ts:19-27 | an unknown email and a wrong password get the identical 401 response |
| `ResetRoute.Reset` | src/app/api/auth/reset-password/route.ts:9-39 | 400 iff email or new password missing; else 400 with the text "Invalid request" iff the email is unknown; status 400 holds iff one of these holds; failures change nothing. On success the row's hash accepts the new password and the flag is false. Every other field of that row, every other row, the key set and the id counter are unchanged. The invariant is kept |
| `ResetRoute.Status` | src/app/api/auth/reset-password/route.ts:13-39 | 200 exactly for a success; every failure is 400 |
| `ResetRoute.ResponseText` | src/app/api/auth/reset-password/route.ts:13-39 | "Invalid request" is the text of exactly the unknown-email outcome, "Password reset successfully" of exactly a success |
| `ResetRoute.ResetRepeatable` | src/app/api/auth/reset-password/route.ts:31-39 | repeating a successful reset answers 200 again and leaves the flag false; with the same salt it changes nothing |
| `Seed.SeedAdmin` | prisma/seed.ts:15-30 | if admin@admin.com exists the table is untouched (password and flag included). Otherwise exactly one row is added: role ADMIN, flag false, batch null, and a hash of "admin@123". Other rows are unchanged and the invariant is kept |
| `Seed.AdminRow` | prisma/seed.ts:18-28 | the seeded row is admin@admin.com, role ADMIN, no reset required, no batch and no student id |
| `Seed.SeedIdempotent` | prisma/seed.ts:15-30 | running the seed twice leaves the table as after the first run |
| `Lifecycle.CreateThenLogin` | src/app/api/auth/login/route.ts:23-40 | right after a successful create, logging in with the temporary password succeeds with the new id, the role and a reset required |
| `Lifecycle.ResetThenLogin` | src/app/api/auth/reset-password/route.ts:31-37 | after a reset the new password logs in with no reset required, and every other non-empty password, the old one included, gets 401 (up to bcrypt's 72-byte limit, left out) |
| `Lifecycle.SeedThenLogin` | prisma/seed.ts:7-28 | after a fresh seed, admin@admin.com / admin@123 logs in as ADMIN with no reset required |
| `Lifecycle.FlagOnlyRaisedByCreate` | src/app/api/admin/users/create/route.ts:47-56 | neither create, reset nor seed sets the reset flag on a row that already existed |
| `LoginPage.DashboardPath` | src/app/login/page.tsx:53-68 | no dashboard path is the reset page or the home page |
| `LoginPage.DashboardsDistinct` | src/app/login/page.tsx:53-68 | each of the five roles has its own dashboard |
| `LoginPage.RoleTarget` | src/app/login/page.tsx:53-75 | each role name leads to its own dashboard; any other value leads nowhere |
| `LoginPage.Decide` | src/app/login/page.tsx:20-77 | the inputs are kept. A response is ok iff its status is 200-299. A non-ok response shows the failure text and navigates nowhere. An ok response navigates exactly once: to the reset page if the flag is true, whatever the role; else to the role's dashboard with no error. An unknown role shows "Login successful, but could not determine dashboard." and goes to `/` |
| `LoginPage.FailureTextAsWritten` | src/app/login/page.tsx:37 | the banner shows a non-empty `data.message`, and "Login failed" when it is absent or empty |
| `LoginPage.HandleSubmitAsWritten` | src/app/login/page.tsx:20-82 | `handleSubmit` as written: it navigates iff the response is ok; a failure without `message` shows "Login failed"; an error is shown exactly on failure or on the fallback to `/` |
| `LoginPage.ServerErrorNeverShown` | src/app/login/page.tsx:36-38 | as written, every failed login shows "Login failed", never the route's own error text |
| `LoginPage.FailureText` | src/app/login/page.tsx:37 | corrected: the banner shows the route's `error` text when there is one |
| `LoginPage.HandleSubmit` | src/app/login/page.tsx:36-38 | corrected page: it navigates iff the response is ok, and a failure with an `error` text shows that text |
| `LoginPage.PreviousErrorCleared` | src/app/login/page.tsx:22 | on the page as written, the error banner after a submission does not depend on the one before it |
| `LoginPage.SubmitAgainstTable` | src/app/login/page.tsx:26-76 | form to route to the page as written, on any table. A successful login navigates once: to the reset page when a reset is required, else to the user's own dashboard, never the fallback. A failed login navigates nowhere and shows "Login failed" |
| `LoginPage.SubmitAgainstTableCorrected` | src/app/login/page.tsx:26-76 | the same run with the corrected page: identical navigation, and a failed login shows the route's own error text |
| `LoginPage.SeededAdminReachesDashboard` | src/app/login/page.tsx:53-55 | on the page as written, after a fresh seed, signing in as the administrator lands on `/admin/dashboard` with no error |
| `LoginPage.NewAccountReachesResetPage` | src/app/login/page.tsx:46-48 | on the page as written, signing in with a new account's temporary password lands on the reset page |
| `UserStore.UserTable.constructor` | prisma/seed.ts:4 | a client attaches to the table as the database holds it; that table must keep the invariant, and the object then shows exactly its rows and id counter |
| `UserStore.UserTable.CreateUser` | src/app/api/admin/users/create/route.ts:15-67 | the in-place handler gives `Create`'s outcome and table. Failures change nothing. Success adds the new email as a key, with the flag set and a hash of the temporary password. The invariant is kept |
| `UserStore.UserTable.ResetPassword` | src/app/api/auth/reset-password/route.ts:7-39 | the in-place handler gives `Reset`'s outcome and table. The key set and id counter are kept, and failures change nothing. Success stores a hash of the new password and clears the flag |
| `UserStore.UserTable.SeedAdmin` | prisma/seed.ts:7-30 | the in-place upsert gives `SeedAdmin`'s table; an existing admin row is untouched, a new one is ADMIN, flag false, hash of "admin@123" |

## Findings

| source | as written | input that shows it | evidently intended | confidence | as-written member | corrected member |
|---|---|---|---|---|---|---|
| src/app/login/page.tsx:37 | the error banner reads `data.message`, but every error body of the login route holds its text under `error` | a failed login, e.g. a wrong password: the response is 401 `{error: "Invalid credentials"}` and the banner shows "Login failed" | show the route's own error text (`data.error`) | medium; not executed | `LoginPage.ServerErrorNeverShown` | `LoginPage.FailureText` |

`LoginPage.HandleSubmitAsWritten` models the code as written, and the
end-to-end lemmas (`SubmitAgainstTable`, `SeededAdminReachesDashboard`,
`NewAccountReachesResetPage`, `PreviousErrorCleared`) are stated about it.
`LoginPage.HandleSubmit` uses the corrected text, and
`LoginPage.SubmitAgainstTableCorrected` proves that the route's error then
reaches the banner.

## Notes on the handlers

- The create response holds only `message`, `userId` and `email`
  (src/app/api/admin/users/create/route.ts:62-67). The temporary password is
  not returned.
- The create handler reads only `firstName`, `lastName`, `email` and `role`
  from the body (src/app/api/admin/users/create/route.ts:17). It neither
  validates nor stores `batch` or any other profile field.
- The create handler checks for a taken email
  (src/app/api/admin/users/create/route.ts:25-31) before it checks the role
  (src/app/api/admin/users/create/route.ts:34-36).
- `Accounts.WellFormed` is preserved by every writing handler.
  `LoginRoute.LoggedInIdIdentifiesRow` relies on it.

## Left out

- Internal errors (status 500) are left out, as I/O. A body that is not
  JSON, or a failing database call, leaves the table unchanged. The
  `$disconnect` in `finally` is an exception
  (src/app/api/admin/users/create/route.ts:73-74,
  src/app/api/auth/reset-password/route.ts:44-45). If it throws after a
  successful insert or update, the response becomes an error but the row
  stays written. The `console.log` calls are left out as well.
- bcrypt is modelled as `Digest(salt, password)` compared by equality.
  Salting and the cost factor are reduced to a `salt` parameter. bcrypt's
  72-byte input limit and hash collisions are not modelled.
- `crypto.randomBytes` is modelled as a parameter holding the bytes it
  returned.
- The database's id generator is modelled as a counter, `nextId`. The
  Prisma schema, with its id type and column defaults, is not part of this
  model. A created row's optional columns are taken to default to null.
- Request bodies are maps from field names to strings. JSON values of other
  types (numbers, `null`, objects) are not modelled; in the source they lead
  to 500s or to JavaScript truthiness cases.
- Concurrent requests are not modelled. Examples are two creates of the
  same email racing past the duplicate check, or a row deleted between the
  lookup and the update in a reset.
- On the login page, a failed `fetch` or an unreadable response body is not
  modelled. It raises an error whose own message the banner shows (for
  example "Failed to fetch"). "An unexpected error occurred." appears only
  when that message is empty (src/app/login/page.tsx:79-82). The rendering
  is not modelled either.
- Updating, deleting and batch-assigning users, listing users, courses and
  logout are not part of this model. They sit outside the account lifecycle
  described above.

=== FILE: accounts.dfy ===
/**
 * The user table and the abstractions the route handlers share: the role
 * enumeration, the password hash, the user row, the table as a value, and
 * the JSON request body.
 */
module Accounts {
  import opened Wrappers

  /** The five values of the Prisma `Role` enum. */
  datatype Role = ADMIN | MANAGEMENT | FINANCE | STUDENT | TEACHER

  /** The string a role is written as in JSON and in the database. */
  function RoleName(r: Role): string
  {
    match r
    case ADMIN => "ADMIN"
    case MANAGEMENT => "MANAGEMENT"
    case FINANCE => "FINANCE"
    case STUDENT => "STUDENT"
    case TEACHER => "TEACHER"
  }

  /**
   * `Object.values(Role).includes(s)`: the role named by `s`, if any.
   * Exactly the five enum names are accepted, each as its own role.
   */
  function ParseRole(s: string): (r: Option<Role>)
    ensures forall role :: RoleName(role) == s <==> r == Some(role)
  {
    if s == "ADMIN" then Some(ADMIN)
    else if s == "MANAGEMENT" then Some(MANAGEMENT)
    else if s == "FINANCE" then Some(FINANCE)
    else if s == "STUDENT" then Some(STUDENT)
    else if s == "TEACHER" then Some(TEACHER)
    else None
  }

  /** The bcrypt salt, drawn fresh by every call of `bcrypt.hash`. */
  type Salt = nat

  /**
   * A stored password hash. It is a type of its own, so a row can never hold
   * a plaintext password; its contents are only ever inspected by `Matches`.
   */
  datatype Digest = Digest(salt: Salt, secret: string)

  /** `bcrypt.hash(pw, 10)` with the salt it drew. */
  function Hash(pw: string, salt: Salt): (d: Digest)
    ensures Matches(pw, d)
  {
    Digest(salt, pw)
  }

  /** `bcrypt.compare(pw, d)`. */
  predicate Matches(pw: string, d: Digest)
  {
    d.secret == pw
  }

  /** A hash accepts the password it was made from and no other one. */
  lemma HashMatchesOnly(pw: string, other: string, salt: Salt)
    ensures Matches(other, Hash(pw, salt)) <==> other == pw
  {
  }

  /** The opaque identifier the database gives a new row. */
  type UserId = nat

  /** One row of the `User` table. */
  datatype User = User(
    id: UserId,
    email: string,
    password: Digest,
    role: Role,
    firstName: string,
    lastName: string,
    phoneNumber: Option<string>,
    department: Option<string>,
    dateOfBirth: Option<string>,
    studentId: Option<string>,
    batch: Option<int>,
    passwordResetRequired: bool)

  /**
   * The `User` table as a value: rows keyed by their unique email, and the
   * identifier the database will give the next row it creates.
   */
  datatype Table = Table(users: map<string, User>, nextId: UserId)

  /**
   * The table's invariant: every row is filed under its own email (so emails
   * are unique), every id was handed out before `nextId`, and no two rows
   * share an id.
   */
  ghost predicate WellFormed(t: Table)
  {
    && (forall e :: e in t.users ==> t.users[e].email == e && t.users[e].id < t.nextId)
    && (forall e1, e2 :: e1 in t.users && e2 in t.users && e1 != e2 ==> t.users[e1].id != t.users[e2].id)
  }

  /**
   * A JSON request body whose fields are strings: a field the client did not
   * send is absent from the map.
   */
  type Request = map<string, string>

  /** JavaScript truthiness of a string field: present and not empty. */
  predicate Given(body: Request, field: string)
  {
    field in body && body[field] != ""
  }
}

=== FILE: create_route.dfy ===
/**
 * `POST /api/admin/users/create`: validate the four required fields, reject
 * a taken email, validate the role, then insert one row whose password is a
 * hash of a fresh temporary password and whose reset flag is set.
 */
module CreateRoute {
  import opened Wrappers
  import opened Accounts
  import opened TempPassword

  /** The four fields the handler destructures from the body; nothing else is read. */
  const RequiredFields: set<string> := {"firstName", "lastName", "email", "role"}

  predicate RequiredGiven(body: Request)
  {
    Given(body, "firstName") && Given(body, "lastName") && Given(body, "email") && Given(body, "role")
  }

  /** The handler's outcomes other than an internal error. */
  datatype CreateResult =
    | Created(userId: UserId, email: string)
    | MissingFields
    | EmailTaken
    | InvalidRole

  /** The HTTP status of each outcome: only a taken email is a conflict. */
  function Status(r: CreateResult): (code: nat)
    ensures code == 201 <==> r.Created?
    ensures code == 409 <==> r.EmailTaken?
    ensures code == 201 || code == 400 || code == 409
  {
    match r
    case Created(_, _) => 201
    case MissingFields => 400
    case EmailTaken => 409
    case InvalidRole => 400
  }

  /** The `error` field of a failure response; a success carries none. */
  function ErrorText(r: CreateResult): (text: Option<string>)
    ensures text.None? <==> r.Created?
    ensures text.Some? ==> text.value != ""
  {
    match r
    case Created(_, _) => None
    case MissingFields => Some("Missing required fields")
    case EmailTaken => Some("User with this email already exists")
    case InvalidRole => Some("Invalid role specified")
  }

  /** The keys of the JSON body of the response; the temporary password is not among them. */
  function ResponseFields(r: CreateResult): (keys: set<string>)
    ensures "temporaryPassword" !in keys && "password" !in keys
    ensures r.Created? <==> "userId" in keys
  {
    if r.Created? then {"message", "userId", "email"} else {"error"}
  }

  /** The outcome of one request and the table after it. */
  datatype CreateStep = CreateStep(result: CreateResult, after: Table)

  /** The row inserted for a valid request, with Prisma's defaults for the optional columns. */
  function NewRow(id: UserId, body: Request, role: Role, password: Digest): (row: User)
    requires "firstName" in body && "lastName" in body && "email" in body
    ensures row.passwordResetRequired
    ensures row.phoneNumber.None? && row.department.None? && row.dateOfBirth.None?
    ensures row.studentId.None? && row.batch.None?
  {
    User(id, body["email"], password, role, body["firstName"], body["lastName"],
         None, None, None, None, None, true)
  }

  /**
   * The handler on table `t`. `random` is what `crypto.randomBytes` returned
   * for the default length, `salt` what `bcrypt.hash` drew.
   */
  function Create(t: Table, body: Request, random: seq<Byte>, salt: Salt): (s: CreateStep)
    requires |random| == ByteCount(DefaultLength)
    ensures s.result.MissingFields? <==> !RequiredGiven(body)
    ensures s.result.EmailTaken? <==> RequiredGiven(body) && body["email"] in t.users
    ensures s.result.InvalidRole? <==>
      RequiredGiven(body) && body["email"] !in t.users && ParseRole(body["role"]).None?
    ensures Status(s.result) == 409 <==> RequiredGiven(body) && body["email"] in t.users
    ensures Status(s.result) == 400 <==>
      !RequiredGiven(body) || (body["email"] !in t.users && ParseRole(body["role"]).None?)
    ensures (Status(s.result) == 201) == (s.after != t)
    ensures ErrorText(s.result) == Some("Missing required fields") <==> !RequiredGiven(body)
    ensures !s.result.Created? ==> s.after == t
    ensures s.result.Created? ==>
      && s.result == Created(t.nextId, body["email"])
      && body["email"] !in t.users
      && s.after.users.Keys == t.users.Keys + {body["email"]}
      && (forall e :: e in t.users ==> s.after.users[e] == t.users[e])
      && s.after.nextId == t.nextId + 1
    ensures s.result.Created? ==>
      var email := body["email"];
      var row := s.after.users[email];
      && row.id == t.nextId && row.email == email
      && row.firstName == body["firstName"] && row.lastName == body["lastName"]
      && Some(row.role) == ParseRole(body["role"])
      && row.passwordResetRequired
      && row.batch.None? && row.studentId.None? && row.department.None?
      && Matches(GenerateTemporaryPassword(DefaultLength, random), row.password)
    ensures WellFormed(t) ==> WellFormed(s.after)
  {
    if !RequiredGiven(body) then CreateStep(MissingFields, t)
    else if body["email"] in t.users then CreateStep(EmailTaken, t)
    else match ParseRole(body["role"])
      case None => CreateStep(InvalidRole, t)
      case Some(role) =>
        var pw := GenerateTemporaryPassword(DefaultLength, random);
        var row := NewRow(t.nextId, body, role, Hash(pw, salt));
        CreateStep(Created(t.nextId, body["email"]), Table(t.users[body["email"] := row], t.nextId + 1))
  }

  /** The part of a body the handler can see. */
  function Visible(body: Request): Request
  {
    map f | f in body && f in RequiredFields :: body[f]
  }

  /**
   * Fields other than the four required ones (`batch`, `studentId`, ...)
   * make no difference: two bodies that agree on those four give the same
   * response and the same table.
   */
  lemma ExtraFieldsIgnored(t: Table, b1: Request, b2: Request, random: seq<Byte>, salt: Salt)
    requires |random| == ByteCount(DefaultLength)
    requires Visible(b1) == Visible(b2)
    ensures Create(t, b1, random, salt) == Create(t, b2, random, salt)
  {
    forall f | f in RequiredFields
      ensures Given(b1, f) == Given(b2, f)
      ensures f in b1 ==> f in b2 && b1[f] == b2[f]
    {
      assert f in b1 <==> f in Visible(b1);
      assert f in b2 <==> f in Visible(b2);
      if f in b1 { assert Visible(b1)[f] == b1[f]; assert Visible(b2)[f] == b2[f]; }
    }
  }

  /**
   * A taken email is reported before the role is looked at: with a taken
   * email the answer is 409 even when the role is not one of the five.
   */
  lemma DuplicateCheckedBeforeRole(t: Table, body: Request, random: seq<Byte>, salt: Salt)
    requires |random| == ByteCount(DefaultLength)
    requires RequiredGiven(body) && body["email"] in t.users && ParseRole(body["role"]).None?
    ensures Status(Create(t, body, random, salt).result) == 409
  {
  }

  /** Creating the same email twice succeeds once, then answers 409 and changes nothing. */
  lemma SecondCreateConflicts(t: Table, body: Request, r1: seq<Byte>, r2: seq<Byte>, s1: Salt, s2: Salt)
    requires |r1| == ByteCount(DefaultLength) && |r2| == ByteCount(DefaultLength)
    requires Create(t, body, r1, s1).result.Created?
    ensures var t1 := Create(t, body, r1, s1).after;
      Create(t1, body, r2, s2) == CreateStep(EmailTaken, t1)
  {
  }
}

=== FILE: lifecycle.dfy ===
/**
 * How the handlers compose over one table: what a login sees after a
 * create, a reset or the seed, and how the reset flag can change.
 */
module Lifecycle {
  import opened Accounts
  import opened TempPassword
  import CreateRoute
  import LoginRoute
  import ResetRoute
  import Seed

  /** Right after a successful create, the temporary password logs in and a reset is required. */
  lemma CreateThenLogin(t: Table, body: Request, random: seq<Byte>, salt: Salt)
    requires |random| == ByteCount(DefaultLength)
    requires CreateRoute.Create(t, body, random, salt).result.Created?
    ensures var s := CreateRoute.Create(t, body, random, salt);
      var pw := GenerateTemporaryPassword(DefaultLength, random);
      LoginRoute.Login(s.after, LoginRoute.LoginRequest(body["email"], pw))
        == LoginRoute.LoggedIn(s.result.userId, s.after.users[body["email"]].role, true)
  {
    var pw := GenerateTemporaryPassword(DefaultLength, random);
    assert pw[0] in pw;
    assert pw != "";
  }

  /**
   * After a successful reset the new password logs in without a reset
   * demand, and every other password (the old one included) is refused.
   */
  lemma ResetThenLogin(t: Table, body: Request, salt: Salt, other: string)
    requires ResetRoute.Reset(t, body, salt).result.PasswordReset?
    requires other != "" && other != body["newPassword"]
    ensures var t1 := ResetRoute.Reset(t, body, salt).after;
      && LoginRoute.Login(t1, LoginRoute.LoginRequest(body["email"], body["newPassword"]))
           == LoginRoute.LoggedIn(t.users[body["email"]].id, t.users[body["email"]].role, false)
      && LoginRoute.Login(t1, LoginRoute.LoginRequest(body["email"], other)) == LoginRoute.InvalidCredentials
  {
  }

  /** After seeding an empty-of-admin table, admin@admin.com / admin@123 logs in as ADMIN with no reset. */
  lemma SeedThenLogin(t: Table, salt: Salt)
    requires Seed.AdminEmail !in t.users
    ensures LoginRoute.Login(Seed.SeedAdmin(t, salt), LoginRoute.LoginRequest(Seed.AdminEmail, Seed.AdminPassword))
      == LoginRoute.LoggedIn(t.nextId, ADMIN, false)
  {
  }

  /** No row that already exists gains the reset flag: only a newly created row starts with it. */
  ghost predicate FlagNotRaised(before: Table, after: Table)
  {
    forall e :: e in before.users && e in after.users && after.users[e].passwordResetRequired
      ==> before.users[e].passwordResetRequired
  }

  lemma FlagOnlyRaisedByCreate(t: Table, create: Request, reset: Request, random: seq<Byte>, salt: Salt)
    requires |random| == ByteCount(DefaultLength)
    ensures FlagNotRaised(t, CreateRoute.Create(t, create, random, salt).after)
    ensures FlagNotRaised(t, ResetRoute.Reset(t, reset, salt).after)
    ensures FlagNotRaised(t, Seed.SeedAdmin(t, salt))
  {
  }
}

=== FILE: login_page.dfy ===
/**
 * The login form's `handleSubmit` after the response has arrived: clear the
 * old error, then either show an error or navigate once, to the reset page
 * or to the dashboard of the user's role.
 */
module LoginPage {
  import opened Wrappers
  import opened Accounts
  import LoginRoute
  import Seed
  import CreateRoute
  import TempPassword
  import Lifecycle

  /** The form's state: the two inputs and the error banner. */
  datatype FormState = FormState(email: string, password: string, error: Option<string>)

  /** The form's state after a submission, and where `router.push` was sent, if anywhere. */
  datatype Submission = Submission(state: FormState, navigateTo: Option<string>)

  const ResetPath: string := "/auth/reset-password"
  const HomePath: string := "/"
  const UnknownRoleError: string := "Login successful, but could not determine dashboard."

  function DashboardPath(r: Role): (path: string)
    ensures path != ResetPath && path != HomePath
  {
    match r
    case ADMIN => "/admin/dashboard"
    case MANAGEMENT => "/management/dashboard"
    case FINANCE => "/finance/dashboard"
    case TEACHER => "/teacher/dashboard"
    case STUDENT => "/student/dashboard"
  }

  /** The five dashboards are five different places. */
  lemma DashboardsDistinct(r1: Role, r2: Role)
    ensures DashboardPath(r1) == DashboardPath(r2) <==> r1 == r2
  {
  }

  /** `switch (role)`: the dashboard of a role name, or nothing for any other value. */
  function RoleTarget(role: Option<string>): (target: Option<string>)
    ensures forall r :: role == Some(RoleName(r)) ==> target == Some(DashboardPath(r))
    ensures (forall r :: role != Some(RoleName(r))) ==> target.None?
  {
    match role
    case None => None
    case Some(name) =>
      match ParseRole(name)
      case None => None
      case Some(r) => Some(DashboardPath(r))
  }

  /** `response.ok`. */
  predicate IsOk(status: nat)
  {
    200 <= status <= 299
  }

  /**
   * The decision, given the text the error banner shows when the response
   * is not ok.
   */
  function Decide(s: FormState, reply: LoginRoute.LoginReply, failure: string): (sub: Submission)
    ensures sub.state.email == s.email && sub.state.password == s.password
    ensures !IsOk(reply.status) ==> sub.navigateTo.None? && sub.state.error == Some(failure)
    ensures IsOk(reply.status) ==> sub.navigateTo.Some?
    ensures IsOk(reply.status) && reply.passwordResetRequired == Some(true) ==>
      sub == Submission(s.(error := None), Some(ResetPath))
    ensures IsOk(reply.status) && reply.passwordResetRequired != Some(true) ==>
      forall r :: reply.role == Some(RoleName(r)) ==>
        sub == Submission(s.(error := None), Some(DashboardPath(r)))
    ensures IsOk(reply.status) && reply.passwordResetRequired != Some(true) && RoleTarget(reply.role).None? ==>
      sub == Submission(s.(error := Some(UnknownRoleError)), Some(HomePath))
  {
    var cleared := s.(error := None);
    if !IsOk(reply.status) then Submission(cleared.(error := Some(failure)), None)
    else if reply.passwordResetRequired == Some(true) then Submission(cleared, Some(ResetPath))
    else match RoleTarget(reply.role)
      case Some(path) => Submission(cleared, Some(path))
      case None => Submission(cleared.(error := Some(UnknownRoleError)), Some(HomePath))
  }

  /** `data.message || 'Login failed'`, the text of the error thrown for a response that is not ok. */
  function FailureTextAsWritten(reply: LoginRoute.LoginReply): (text: string)
    ensures text != ""
    ensures reply.message.Some? && reply.message.value != "" ==> text == reply.message.value
    ensures reply.message.None? ==> text == "Login failed"
  {
    match reply.message
    case Some(m) => if m != "" then m else "Login failed"
    case None => "Login failed"
  }

  /** `handleSubmit` as written. */
  function HandleSubmitAsWritten(s: FormState, reply: LoginRoute.LoginReply): (sub: Submission)
    ensures IsOk(reply.status) <==> sub.navigateTo.Some?
    ensures !IsOk(reply.status) && reply.message.None? ==> sub.state.error == Some("Login failed")
    ensures sub.state.error.Some? <==> !IsOk(reply.status) || sub.navigateTo == Some(HomePath)
  {
    Decide(s, reply, FailureTextAsWritten(reply))
  }

  /**
   * The login route puts its error text in `error` and never sends
   * `message` with a failure, so the page as written shows "Login failed"
   * for every failed login: the server's "Invalid credentials" or "Email and
   * password are required" never reaches the user.
   */
  lemma ServerErrorNeverShown(s: FormState, r: LoginRoute.LoginResult)
    requires !r.LoggedIn?
    ensures HandleSubmitAsWritten(s, LoginRoute.ToReply(r)).state.error == Some("Login failed")
    ensures LoginRoute.ToReply(r).error != Some("Login failed")
  {
  }

  /** `data.error || data.message || 'Login failed'`: the server's own text first. */
  function FailureText(reply: LoginRoute.LoginReply): (text: string)
    ensures text != ""
    ensures reply.error.Some? && reply.error.value != "" ==> text == reply.error.value
    ensures reply.error.None? ==> text == FailureTextAsWritten(reply)
  {
    match reply.error
    case Some(e) => if e != "" then e else FailureTextAsWritten(reply)
    case None => FailureTextAsWritten(reply)
  }

  /** `handleSubmit` with the failure text read from the field the server sends. */
  function HandleSubmit(s: FormState, reply: LoginRoute.LoginReply): (sub: Submission)
    ensures IsOk(reply.status) <==> sub.navigateTo.Some?
    ensures !IsOk(reply.status) && reply.error.Some? && reply.error.value != "" ==>
      sub.state.error == reply.error
  {
    Decide(s, reply, FailureText(reply))
  }

  /** The error from an earlier submission never survives a new one. */
  lemma PreviousErrorCleared(s: FormState, earlier: string, reply: LoginRoute.LoginReply)
    ensures HandleSubmitAsWritten(s.(error := Some(earlier)), reply).state.error
         == HandleSubmitAsWritten(s.(error := None), reply).state.error
  {
  }

  /**
   * A submission against table `t`: the login route answers the form's
   * credentials and the page as written acts on the reply. A successful
   * login navigates exactly once, to the reset page when a reset is
   * required and to the user's own dashboard otherwise, never to the
   * fallback; a failed one navigates nowhere and shows "Login failed".
   */
  lemma SubmitAgainstTable(t: Table, s: FormState)
    ensures var result := LoginRoute.Login(t, LoginRoute.LoginRequest(s.email, s.password));
      var sub := HandleSubmitAsWritten(s, LoginRoute.ToReply(result));
      && (result.LoggedIn? && result.passwordResetRequired ==>
            sub == Submission(s.(error := None), Some(ResetPath)))
      && (result.LoggedIn? && !result.passwordResetRequired ==>
            sub == Submission(s.(error := None), Some(DashboardPath(result.role))))
      && (!result.LoggedIn? ==>
            sub.navigateTo.None? && sub.state.error == Some("Login failed"))
  {
    var result := LoginRoute.Login(t, LoginRoute.LoginRequest(s.email, s.password));
    var reply := LoginRoute.ToReply(result);
    if result.LoggedIn? && !result.passwordResetRequired {
      assert reply.role == Some(RoleName(result.role));
    }
  }

  /**
   * The same run with the corrected page: a failed login shows the route's
   * own error text instead of "Login failed".
   */
  lemma SubmitAgainstTableCorrected(t: Table, s: FormState)
    ensures var result := LoginRoute.Login(t, LoginRoute.LoginRequest(s.email, s.password));
      var sub := HandleSubmit(s, LoginRoute.ToReply(result));
      && (result.LoggedIn? && result.passwordResetRequired ==>
            sub == Submission(s.(error := None), Some(ResetPath)))
      && (result.LoggedIn? && !result.passwordResetRequired ==>
            sub == Submission(s.(error := None), Some(DashboardPath(result.role))))
      && (!result.LoggedIn? ==>
            sub.navigateTo.None? && sub.state.error == LoginRoute.ToReply(result).error)
  {
    var result := LoginRoute.Login(t, LoginRoute.LoginRequest(s.email, s.password));
    var reply := LoginRoute.ToReply(result);
    if result.LoggedIn? && !result.passwordResetRequired {
      assert reply.role == Some(RoleName(result.role));
    }
  }

  /** Signing in as the seeded administrator lands on the admin dashboard. */
  lemma SeededAdminReachesDashboard(t: Table, salt: Salt, s: FormState)
    requires Seed.AdminEmail !in t.users
    requires s.email == Seed.AdminEmail && s.password == Seed.AdminPassword
    ensures var t1 := Seed.SeedAdmin(t, salt);
      HandleSubmitAsWritten(s, LoginRoute.ToReply(LoginRoute.Login(t1, LoginRoute.LoginRequest(s.email, s.password))))
        == Submission(s.(error := None), Some("/admin/dashboard"))
  {
    Lifecycle.SeedThenLogin(t, salt);
    SubmitAgainstTable(Seed.SeedAdmin(t, salt), s);
  }

  /** Signing in with the temporary password of a new account lands on the reset page. */
  lemma NewAccountReachesResetPage(t: Table, body: Request, random: seq<TempPassword.Byte>, salt: Salt, s: FormState)
    requires |random| == TempPassword.ByteCount(TempPassword.DefaultLength)
    requires CreateRoute.Create(t, body, random, salt).result.Created?
    requires s.email == body["email"]
    requires s.password == TempPassword.GenerateTemporaryPassword(TempPassword.DefaultLength, random)
    ensures var t1 := CreateRoute.Create(t, body, random, salt).after;
      HandleSubmitAsWritten(s, LoginRoute.ToReply(LoginRoute.Login(t1, LoginRoute.LoginRequest(s.email, s.password))))
        == Submission(s.(error := None), Some(ResetPath))
  {
    Lifecycle.CreateThenLogin(t, body, random, salt);
    SubmitAgainstTable(CreateRoute.Create(t, body, random, salt).after, s);
  }
}

=== FILE: login_route.dfy ===
/**
 * `POST /api/auth/login`: a read-only credential check. It answers 400 when
 * a field is missing, 401 "Invalid credentials" for an unknown email or a
 * wrong password alike, and otherwise 200 with the row's id, role and
 * reset flag.
 */
module LoginRoute {
  import opened Wrappers
  import opened Accounts

  datatype LoginResult =
    | LoggedIn(userId: UserId, role: Role, passwordResetRequired: bool)
    | MissingCredentials
    | InvalidCredentials

  /**
   * The handler on table `t`. It is a function of the table, so no outcome
   * can change it.
   */
  function Login(t: Table, body: Request): (r: LoginResult)
    ensures r.MissingCredentials? <==> !Given(body, "email") || !Given(body, "password")
    ensures r.LoggedIn? <==>
      && Given(body, "email") && Given(body, "password")
      && body["email"] in t.users
      && Matches(body["password"], t.users[body["email"]].password)
    ensures r.LoggedIn? ==>
      var u := t.users[body["email"]];
      r.userId == u.id && r.role == u.role && r.passwordResetRequired == u.passwordResetRequired
  {
    if !Given(body, "email") || !Given(body, "password") then MissingCredentials
    else if body["email"] !in t.users then InvalidCredentials
    else
      var user := t.users[body["email"]];
      if !Matches(body["password"], user.password) then InvalidCredentials
      else LoggedIn(user.id, user.role, user.passwordResetRequired)
  }

  /** The body the login page sends: `JSON.stringify({ email, password })`. */
  function LoginRequest(email: string, password: string): (body: Request)
    ensures "email" in body && "password" in body
    ensures body["email"] == email && body["password"] == password
    ensures Given(body, "email") <==> email != ""
    ensures Given(body, "password") <==> password != ""
  {
    map["email" := email, "password" := password]
  }

  /** The status and the JSON fields of the response, as the login page receives them. */
  datatype LoginReply = LoginReply(
    status: nat,
    message: Option<string>,
    error: Option<string>,
    userId: Option<UserId>,
    role: Option<string>,
    passwordResetRequired: Option<bool>)

  function ToReply(r: LoginResult): (reply: LoginReply)
    ensures r.LoggedIn? <==> reply.status == 200
    ensures !r.LoggedIn? ==> reply.message.None? && reply.error.Some? && reply.role.None?
    ensures r.LoggedIn? ==>
      && reply.message == Some("Login successful") && reply.error.None?
      && reply.userId == Some(r.userId) && reply.role == Some(RoleName(r.role))
      && reply.passwordResetRequired == Some(r.passwordResetRequired)
    ensures r.MissingCredentials? ==> reply.status == 400 && reply.error == Some("Email and password are required")
    ensures r.InvalidCredentials? ==> reply.status == 401 && reply.error == Some("Invalid credentials")
  {
    match r
    case LoggedIn(id, role, flag) =>
      LoginReply(200, Some("Login successful"), None, Some(id), Some(RoleName(role)), Some(flag))
    case MissingCredentials =>
      LoginReply(400, None, Some("Email and password are required"), None, None, None)
    case InvalidCredentials =>
      LoginReply(401, None, Some("Invalid credentials"), None, None, None)
  }

  /**
   * An unknown email and a wrong password for a known one get the very same
   * response, so the response does not reveal whether an account exists.
   */
  lemma UnknownEmailLikeWrongPassword(t: Table, unknown: Request, wrong: Request)
    requires Given(unknown, "email") && Given(unknown, "password") && unknown["email"] !in t.users
    requires Given(wrong, "email") && Given(wrong, "password") && wrong["email"] in t.users
    requires !Matches(wrong["password"], t.users[wrong["email"]].password)
    ensures ToReply(Login(t, unknown)) == ToReply(Login(t, wrong))
    ensures ToReply(Login(t, unknown)).status == 401
  {
  }

  /**
   * On a well-formed table the id a successful login reports names exactly
   * one row: the one filed under, and holding, the email that logged in.
   */
  lemma LoggedInIdIdentifiesRow(t: Table, body: Request)
    requires WellFormed(t)
    requires Login(t, body).LoggedIn?
    ensures forall e :: e in t.users && t.users[e].id == Login(t, body).userId ==>
      e == body["email"] && t.users[e].email == body["email"]
  {
  }
}

=== FILE: reset_route.dfy ===
/**
 * `POST /api/auth/reset-password`: replace one row's password hash and clear
 * its reset flag. A missing field and an unknown email both answer 400.
 */
module ResetRoute {
  import opened Accounts

  datatype ResetResult = PasswordReset | MissingFields | InvalidRequest

  /** The HTTP status of each outcome: every failure is a 400. */
  function Status(r: ResetResult): (code: nat)
    ensures code == 200 <==> r.PasswordReset?
    ensures code == 400 <==> !r.PasswordReset?
  {
    if r.PasswordReset? then 200 else 400
  }

  /** The `message` or `error` text of each outcome; an unknown email gets only "Invalid request". */
  function ResponseText(r: ResetResult): (text: string)
    ensures text == "Invalid request" <==> r.InvalidRequest?
    ensures text == "Password reset successfully" <==> r.PasswordReset?
  {
    match r
    case PasswordReset => "Password reset successfully"
    case MissingFields => "Email and new password are required"
    case InvalidRequest => "Invalid request"
  }

  datatype ResetStep = ResetStep(result: ResetResult, after: Table)

  /** The handler on table `t`; `salt` is what `bcrypt.hash` drew. */
  function Reset(t: Table, body: Request, salt: Salt): (s: ResetStep)
    ensures s.result.MissingFields? <==> !Given(body, "email") || !Given(body, "newPassword")
    ensures s.result.InvalidRequest? <==>
      Given(body, "email") && Given(body, "newPassword") && body["email"] !in t.users
    ensures Status(s.result) == 400 <==>
      !Given(body, "email") || !Given(body, "newPassword") || body["email"] !in t.users
    ensures ResponseText(s.result) == "Invalid request" <==>
      Given(body, "email") && Given(body, "newPassword") && body["email"] !in t.users
    ensures !s.result.PasswordReset? ==> s.after == t
    ensures s.result.PasswordReset? ==>
      && s.after.nextId == t.nextId
      && s.after.users.Keys == t.users.Keys
      && (forall e :: e in t.users && e != body["email"] ==> s.after.users[e] == t.users[e])
    ensures s.result.PasswordReset? ==>
      var before := t.users[body["email"]];
      var row := s.after.users[body["email"]];
      && Matches(body["newPassword"], row.password)
      && !row.passwordResetRequired
      && row == before.(password := row.password, passwordResetRequired := false)
    ensures WellFormed(t) ==> WellFormed(s.after)
  {
    if !Given(body, "email") || !Given(body, "newPassword") then ResetStep(MissingFields, t)
    else if body["email"] !in t.users then ResetStep(InvalidRequest, t)
    else
      var email := body["email"];
      var row := t.users[email].(password := Hash(body["newPassword"], salt), passwordResetRequired := false);
      ResetStep(PasswordReset, Table(t.users[email := row], t.nextId))
  }

  /** Repeating a successful reset answers 200 again and leaves the flag cleared. */
  lemma ResetRepeatable(t: Table, body: Request, s1: Salt, s2: Salt)
    requires Reset(t, body, s1).result.PasswordReset?
    ensures var t1 := Reset(t, body, s1).after;
      && Reset(t1, body, s2).result.PasswordReset?
      && !Reset(t1, body, s2).after.users[body["email"]].passwordResetRequired
      && Reset(t1, body, s1).after == t1
  {
  }
}

=== FILE: seed.dfy ===
/**
 * The seed script's `main`: an upsert of the administrator account keyed by
 * `admin@admin.com` whose update branch is empty, so it only ever inserts.
 */
module Seed {
  import opened Wrappers
  import opened Accounts

  const AdminEmail: string := "admin@admin.com"
  const AdminPassword: string := "admin@123"

  /** The row the `create` branch of the upsert writes. */
  function AdminRow(id: UserId, password: Digest): (row: User)
    ensures row.email == AdminEmail && row.role == ADMIN
    ensures !row.passwordResetRequired && row.batch.None? && row.studentId.None?
  {
    User(id, AdminEmail, password, ADMIN, "Admin", "User", Some("9999999999"),
         Some("Administration"), Some("1990-01-01"), None, None, false)
  }

  /** The seed on table `t`; `salt` is what `bcrypt.hash` drew. */
  function SeedAdmin(t: Table, salt: Salt): (after: Table)
    ensures AdminEmail in t.users ==> after == t
    ensures AdminEmail !in t.users ==>
      && after.users.Keys == t.users.Keys + {AdminEmail}
      && (forall e :: e in t.users ==> after.users[e] == t.users[e])
      && after.nextId == t.nextId + 1
    ensures AdminEmail !in t.users ==>
      var row := after.users[AdminEmail];
      && row.role == ADMIN && !row.passwordResetRequired && row.batch.None?
      && row.id == t.nextId && row.email == AdminEmail
      && Matches(AdminPassword, row.password)
    ensures WellFormed(t) ==> WellFormed(after)
  {
    if AdminEmail in t.users then t
    else Table(t.users[AdminEmail := AdminRow(t.nextId, Hash(AdminPassword, salt))], t.nextId + 1)
  }

  /** Running the seed again, with whatever salt, leaves the table as the first run left it. */
  lemma SeedIdempotent(t: Table, s1: Salt, s2: Salt)
    ensures SeedAdmin(SeedAdmin(t, s1), s2) == SeedAdmin(t, s1)
  {
  }
}

=== FILE: temp_password.dfy ===
/**
 * `generateTemporaryPassword`: `ceil(length / 2)` random bytes, encoded as
 * lower-case hexadecimal (`Buffer.toString('hex')`) and cut to `length`
 * characters. The random bytes are a parameter.
 */
module TempPassword {

  type Byte = b: nat | b < 256

  /** The default `length` of a temporary password. */
  const DefaultLength: nat := 12

  /** `Math.ceil(length / 2)`: how many random bytes are drawn. */
  function ByteCount(length: nat): (n: nat)
    ensures length <= 2 * n <= length + 1
  {
    (length + 1) / 2
  }

  const Digits: string := "0123456789abcdef"

  /** The lower-case hexadecimal digit of a nibble. */
  function HexDigit(d: nat): (c: char)
    requires d < 16
    ensures IsHexChar(c)
  {
    Digits[d]
  }

  predicate IsHexChar(c: char)
  {
    '0' <= c <= '9' || 'a' <= c <= 'f'
  }

  /** The nibble a lower-case hexadecimal digit stands for. */
  function HexValue(c: char): (d: nat)
    requires IsHexChar(c)
    ensures d < 16
  {
    if c <= '9' then c as nat - '0' as nat else c as nat - 'a' as nat + 10
  }

  /** A digit and its value are inverse to each other. */
  lemma DigitRoundTrip(d: nat, c: char)
    requires d < 16 && IsHexChar(c)
    ensures HexValue(HexDigit(d)) == d
    ensures HexDigit(HexValue(c)) == c
  {
  }

  /** `Buffer.toString('hex')`: two digits per byte, high nibble first. */
  function Hex(bytes: seq<Byte>): (s: string)
    ensures |s| == 2 * |bytes|
    ensures forall i :: 0 <= i < |s| ==> IsHexChar(s[i])
  {
    if bytes == [] then []
    else [HexDigit(bytes[0] / 16), HexDigit(bytes[0] % 16)] + Hex(bytes[1..])
  }

  /** Character `k` of the encoding of `bytes`: a nibble of byte `k / 2`. */
  function DigitAt(bytes: seq<Byte>, k: nat): char
    requires k < 2 * |bytes|
  {
    var b := bytes[k / 2];
    if k % 2 == 0 then HexDigit(b / 16) else HexDigit(b % 16)
  }

  /** Each character of `Hex(bytes)` is the matching nibble of its byte. */
  lemma {:induction false} HexAt(bytes: seq<Byte>, k: nat)
    requires k < 2 * |bytes|
    ensures Hex(bytes)[k] == DigitAt(bytes, k)
  {
    if k >= 2 {
      HexAt(bytes[1..], k - 2);
      assert Hex(bytes)[k] == Hex(bytes[1..])[k - 2];
    }
  }

  /** Decoding hexadecimal text back into bytes, two digits per byte. */
  function Unhex(s: string): (bytes: seq<Byte>)
    requires |s| % 2 == 0
    requires forall i :: 0 <= i < |s| ==> IsHexChar(s[i])
    ensures 2 * |bytes| == |s|
  {
    if s == [] then []
    else [16 * HexValue(s[0]) + HexValue(s[1])] + Unhex(s[2..])
  }

  /** Decoding undoes the encoding. */
  lemma {:induction false} UnhexHex(bytes: seq<Byte>)
    ensures Unhex(Hex(bytes)) == bytes
  {
    if bytes != [] {
      UnhexHex(bytes[1..]);
      DigitRoundTrip(bytes[0] / 16, '0');
      DigitRoundTrip(bytes[0] % 16, '0');
      var h := Hex(bytes);
      assert h == [HexDigit(bytes[0] / 16), HexDigit(bytes[0] % 16)] + Hex(bytes[1..]);
      assert h[2..] == Hex(bytes[1..]);
    }
  }

  /**
   * `generateTemporaryPassword(length)`, given the `ceil(length / 2)` bytes
   * `crypto.randomBytes` returned: exactly `length` lower-case hexadecimal
   * characters, character `k` being a nibble of random byte `k / 2`.
   */
  function GenerateTemporaryPassword(length: nat, random: seq<Byte>): (pw: string)
    requires |random| == ByteCount(length)
    ensures |pw| == length
    ensures forall k :: 0 <= k < length ==> IsHexChar(pw[k]) && pw[k] == DigitAt(random, k)
  {
    var s := Hex(random);
    forall k | 0 <= k < length
      ensures s[k] == DigitAt(random, k)
    {
      HexAt(random, k);
    }
    s[..length]
  }

  /** For an even length no character is cut off: the password decodes back to the random bytes. */
  lemma TemporaryPasswordDecodes(length: nat, random: seq<Byte>)
    requires |random| == ByteCount(length) && length % 2 == 0
    ensures Unhex(GenerateTemporaryPassword(length, random)) == random
  {
    UnhexHex(random);
    assert GenerateTemporaryPassword(length, random) == Hex(random);
  }
}

=== FILE: user_store.dfy ===
/**
 * The `User` table as the handlers change it: one object whose rows and
 * id counter are updated in place, one method per writing handler, each
 * with the early returns of the handler it models.
 */
module UserStore {
  import opened Accounts
  import opened TempPassword
  import CreateRoute
  import ResetRoute
  import Seed

  class UserTable {
    var users: map<string, User>
    var nextId: UserId

    ghost predicate Valid()
      reads this
    {
      WellFormed(Snapshot())
    }

    /** The table's current contents as a value. */
    function Snapshot(): Table
      reads this
    {
      Table(users, nextId)
    }

    /** `new PrismaClient()`: a handle on the table as the database holds it. */
    constructor (t: Table)
      requires WellFormed(t)
      ensures Valid() && Snapshot() == t
    {
      users := t.users;
      nextId := t.nextId;
    }

    /** `POST /api/admin/users/create`. */
    method CreateUser(body: Request, random: seq<Byte>, salt: Salt) returns (result: CreateRoute.CreateResult)
      requires Valid() && |random| == ByteCount(DefaultLength)
      modifies this
      ensures Valid()
      ensures CreateRoute.CreateStep(result, Snapshot()) == CreateRoute.Create(old(Snapshot()), body, random, salt)
      ensures !result.Created? ==> users == old(users) && nextId == old(nextId)
      ensures result.Created? ==>
        && users.Keys == old(users.Keys) + {result.email}
        && users[result.email].passwordResetRequired
        && Matches(GenerateTemporaryPassword(DefaultLength, random), users[result.email].password)
    {
      if !CreateRoute.RequiredGiven(body) {
        return CreateRoute.MissingFields;
      }
      var email := body["email"];
      if email in users {
        return CreateRoute.EmailTaken;
      }
      var role := ParseRole(body["role"]);
      if role.None? {
        return CreateRoute.InvalidRole;
      }
      var temporaryPassword := GenerateTemporaryPassword(DefaultLength, random);
      var hashedPassword := Hash(temporaryPassword, salt);
      var row := CreateRoute.NewRow(nextId, body, role.value, hashedPassword);
      users := users[email := row];
      nextId := nextId + 1;
      result := CreateRoute.Created(row.id, row.email);
    }

    /** `POST /api/auth/reset-password`. */
    method ResetPassword(body: Request, salt: Salt) returns (result: ResetRoute.ResetResult)
      requires Valid()
      modifies this
      ensures Valid()
      ensures ResetRoute.ResetStep(result, Snapshot()) == ResetRoute.Reset(old(Snapshot()), body, salt)
      ensures nextId == old(nextId) && users.Keys == old(users.Keys)
      ensures !result.PasswordReset? ==> users == old(users)
      ensures result.PasswordReset? ==>
        && Matches(body["newPassword"], users[body["email"]].password)
        && !users[body["email"]].passwordResetRequired
    {
      if !Given(body, "email") || !Given(body, "newPassword") {
        return ResetRoute.MissingFields;
      }
      var email := body["email"];
      if email !in users {
        return ResetRoute.InvalidRequest;
      }
      var hashedPassword := Hash(body["newPassword"], salt);
      users := users[email := users[email].(password := hashedPassword, passwordResetRequired := false)];
      result := ResetRoute.PasswordReset;
    }

    /** The seed script's upsert of the administrator. */
    method SeedAdmin(salt: Salt)
      requires Valid()
      modifies this
      ensures Valid()
      ensures Snapshot() == Seed.SeedAdmin(old(Snapshot()), salt)
      ensures Seed.AdminEmail in old(users) ==> users == old(users) && nextId == old(nextId)
      ensures Seed.AdminEmail in users
      ensures Seed.AdminEmail !in old(users) ==>
        && users[Seed.AdminEmail].role == ADMIN
        && !users[Seed.AdminEmail].passwordResetRequired
        && Matches(Seed.AdminPassword, users[Seed.AdminEmail].password)
    {
      var hashedPassword := Hash(Seed.AdminPassword, salt);
      if Seed.AdminEmail !in users {
        users := users[Seed.AdminEmail := Seed.AdminRow(nextId, hashedPassword)];
        nextId := nextId + 1;
      }
    }
  }
}

=== FILE: wrappers.dfy ===
/** The optional value used for nullable columns and absent JSON fields. */
module Wrappers {
  datatype Option<+T> = None | Some(value: T)
}
